=== FILE: README.md ===
# Oscar service core in Dafny

This project models the runtime core of the Oscar API server:

- the process-wide **service state store**, a `(state, started)` pair;
- the **probe handlers** that read it: `/healthz`, `/livez`, `/readyz` and `/v1/status`;
- the **request-logging middleware**, which wraps every request and emits exactly one log entry;
- the **logging configuration**: the access-log probe filter, the JSON formatter's field renames, and which logger carries which filter.

Everything is written as immutable datatypes and pure functions.

Modules:

- `Wrappers`: `Option` and `Result`.
- `Text`: Python's `str.find`, the substring relation, and the decimal rendering of an `int` in an f-string, with its inverse.
- `Http`: responses, bodies, `HTTPException` and the framework's default rendering of it.
- `ServiceStatus`: the four state constants, the snapshot, `set_service_state`, `uptime` and the four handlers.
  - The reader/writer lock is modelled by its effect: accesses happen in the order the lock admits them, and a write replaces the whole pair.
  - `StoreHoldsLastWrite` shows that a reader always sees either the initial pair or the pair of one single write, never a mix.
- `LoggingConfig`: logging levels, `ProbeFilter.filter`, `rename_fields`, `reserved_attrs`, and the handler and logger tables of `LOGGING_CONFIG`.
- `RequestLogging`: `RequestLoggingMiddleware.dispatch`.
  - The downstream call is an input: either a returned response or a raised exception.
  - The output is the response plus the sequence of log calls made on the way.
- `Lifecycle`: the lifespan order of `oscar/main.py` (online at startup, stopping at shutdown), and the probes seen through the middleware.

Clocks are parameters: `datetime.now` is an `Instant` (an integer of microseconds) and `time.perf_counter` is an integer tick count. `traceback.format_exc()` is an opaque string parameter. The service name and version stamped by the middleware are an `Identity` parameter. The `__version__` reported by `/v1/status` is a parameter as well.

Two consequences of how the code is wired:

- oscar/telemetry.py defines only `get_service_id` (a `HOSTNAME` lookup), and no modelled module injects trace or span ids, so neither is modelled.
- The middleware logs to the `oscar.requests` logger. The probe filter is attached only to `uvicorn.access`. So the middleware's own entries for probe paths are never dropped by the filter (`RequestLogNeverFiltered`). A successful probe request without a query string is logged at debug (`LivenessRequestLevel`, `ReadyzRequestLevel`); a 503 from `/readyz` is logged at error, and a probe path sent with a query string at info.

## Model

| member | source | states |
|---|---|---|
| ServiceStatus.Name | oscar/routers/status.py:13-16 | each state is stored as its constant (`initialized`, `ok`, `maintenance`, `stopping`), and the constant parses back to that state |
| ServiceStatus.NameBijective | oscar/routers/status.py:13-16 | a state name parses to a state exactly when it is that state's constant, so distinct states never share a name |
| ServiceStatus.SetServiceState | oscar/routers/status.py:68-78 | any state may follow any state; afterwards the store holds the given state and a start instant, which is the given one or, when omitted, `now`; there is no failure path |
| ServiceStatus.NoFieldSurvives | oscar/routers/status.py:76-78 | the pair after a write depends only on the write's arguments: nothing from the previous pair survives |
| ServiceStatus.StoreHoldsLastWrite | oscar/routers/status.py:68-78 | after any sequence of reads and writes, the store is the initial `("initialized", None)` pair when there was no write, and otherwise exactly the pair committed by the last write (both fields from one call) |
| ServiceStatus.UptimeUnknownUntilFirstWrite | oscar/routers/status.py:62-63 | uptime is `"unknown"` exactly as long as no `set_service_state` call has happened |
| ServiceStatus.Uptime | oscar/routers/status.py:58-65 | uptime is unknown iff no start instant is stored; otherwise start plus uptime equals the current time |
| ServiceStatus.Status | oscar/routers/status.py:36-55 | `/v1/status` never fails; its `status` names the current state, uptime is the snapshot's uptime at the time of the request (unknown iff no start instant is stored), version is the default and service is `"oscar"` |
| ServiceStatus.Healthz | oscar/routers/status.py:81-88 | answers 200 `"ok"` without reading the state |
| ServiceStatus.Livez | oscar/routers/status.py:91-96 | answers 200 `"ok"` without reading the state |
| ServiceStatus.Readyz | oscar/routers/status.py:99-111 | succeeds with 200 `"ok"` iff the state is online; otherwise raises 503 with detail `"Service Unavailable"` |
| Http.RenderHttpException | oscar/routers/status.py:110 | the raised exception reaches the middleware as a response with the exception's status and, when that status allows a body (not below 200, 204, 205 or 304, so always for the 503), the JSON body `{"detail": detail}`; otherwise no body |
| Lifecycle.Startup | oscar/main.py:25 | after startup the store holds exactly `("ok", now)`: the service is ready and its uptime counts from the startup instant |
| Lifecycle.Shutdown | oscar/main.py:31 | after shutdown the store holds exactly `("stopping", now)`: the service is not ready, and the uptime restarts from the shutdown instant |
| Lifecycle.LifespanProbes | oscar/main.py:18-31 | readiness fails before startup, holds after it and fails after shutdown; uptime is unknown before startup and counts from the shutdown instant afterwards; the reported status is `initialized`, then `ok`, then `stopping`; liveness holds throughout |
| Lifecycle.ServeReadyz | oscar/routers/status.py:108-111 | the `/readyz` response status is 200 with plain text `"ok"` iff the state is online, and otherwise 503 with body `{"detail": "Service Unavailable"}` |
| Lifecycle.ReadyzRequestLevel | oscar/middleware/logging.py:47-57 | a `GET /readyz` logs at error while not online (503), at debug while online, and at info while online when a query string was sent |
| Lifecycle.LivenessRequestLevel | oscar/middleware/logging.py:47-57 | `GET /healthz` and `GET /livez` are logged at debug |
| Text.Find | oscar/logging.py:79-81 | `str.find` returns -1 iff the needle is not a substring, and otherwise the first index where it occurs |
| Text.IntToDecimal | oscar/middleware/logging.py:36 | the status is rendered as Python renders an int: a leading `-` exactly for negative numbers, then at least one decimal digit, with no leading zero except for 0 itself |
| Text.IntDecimalRoundTrip | oscar/middleware/logging.py:36 | the f-string rendering of an integer status reads back as the same integer |
| LoggingConfig.ProbeFilter | oscar/logging.py:75-82 | a record is kept iff its message contains none of `GET /healthz`, `GET /livez`, `GET /readyz` |
| LoggingConfig.DropSurvivesExtension | oscar/logging.py:77-82 | if a message is dropped, every message containing it is dropped too |
| LoggingConfig.NoGetIsKept | oscar/logging.py:79-81 | a message without a `G` is always kept, so other methods on probe paths pass |
| LoggingConfig.SubstringNotExactPath | oscar/logging.py:79-81 | `GET /readyz?x` and `GET /healthzfoo` are dropped; `POST /healthz` and `HEAD /livez` are kept |
| LoggingConfig.OutputKey | oscar/logging.py:24-28 | `asctime` becomes `timestamp`, `levelname` becomes `level`, `name` becomes `logger`, and every other attribute keeps its name |
| LoggingConfig.OutputKeyCollisions | oscar/logging.py:24-28 | two different attributes get the same output name only when one is renamed onto the other's name |
| LoggingConfig.ReservedAttrs | oscar/logging.py:29 | the reserved set is the library's set plus `color_message` and nothing else |
| LoggingConfig.ExtraField | oscar/logging.py:29 | an extra attribute is left out of the output when it is reserved, and otherwise is output under its renamed key |
| LoggingConfig.ColorMessageNeverOutput | oscar/logging.py:29 | no attribute is ever output under the name `color_message` |
| LoggingConfig.FiltersOf | oscar/logging.py:50-65 | the probe filter is attached to `uvicorn.access` and to no other logger |
| LoggingConfig.Admits | oscar/logging.py:50-65 | records on any logger other than `uvicorn.access` pass the filters; on `uvicorn.access` they pass iff they mention no probe request |
| LoggingConfig.ConfiguredLoggers | oscar/logging.py:32-65 | every configured logger has level INFO, does not propagate, and writes through a configured handler that uses the JSON formatter |
| RequestLogging.LoggedPath | oscar/middleware/logging.py:27-29 | the logged path is the URL path when the query is empty, and otherwise the path, `?` and the query |
| RequestLogging.LoggedPathRoundTrip | oscar/middleware/logging.py:27-29 | for a path without `?`, the path and the query are recovered from the logged path |
| LoggingConfig.LevelNumber | oscar/middleware/logging.py:47-57 | the levels the middleware chooses among carry the `logging` module's numbers: debug 10, info 20, warning 30, error 40, critical 50 |
| RequestLogging.Severity | oscar/middleware/logging.py:47-57 | error iff status >= 500; warning iff 400 <= status < 500; debug iff status < 400 on a probe path; info iff status < 400 elsewhere |
| RequestLogging.SeverityMonotone | oscar/middleware/logging.py:47-57 | for a fixed path, a higher status never logs at a lower level |
| RequestLogging.SuccessMessage | oscar/middleware/logging.py:36 | the success message is the service, a space, the method, a space, the path, a space, and the decimal status code, each at its fixed position |
| RequestLogging.SuccessMessageStatus | oscar/middleware/logging.py:36 | the status code is the last word of the success message |
| RequestLogging.FailureMessage | oscar/middleware/logging.py:65 | the failure message is the method and path, then ` - Unhandled Exception `, then the exception class name, `: ` and the exception message, each at its fixed position |
| RequestLogging.Dispatch | oscar/middleware/logging.py:24-82 | exactly one log entry per request; a returned response is passed on unchanged and logged at its severity with its status; a raised exception becomes the fixed 500 `{"error": "Internal Server Error"}` reply and one critical entry carrying the exception's class name, message and traceback; path, method, service, version and elapsed time are stamped on both paths |
| RequestLogging.ExceptionDoesNotLeak | oscar/middleware/logging.py:79-82 | the reply to an unhandled exception is the same whatever the exception and traceback |
| RequestLogging.DispatchMessage | oscar/middleware/logging.py:36-65 | the entry's message is `"{service} {method} {path} {status}"` on success and `"{method} {path} - Unhandled Exception {type}: {msg}"` on failure |
| RequestLogging.ProbeWithQueryLogsInfo | oscar/middleware/logging.py:27-57 | a probe path sent with a query string and a status below 400 logs at info, not debug |
| RequestLogging.RequestLogNeverFiltered | oscar/middleware/logging.py:16 | entries of the `oscar.requests` logger are never dropped by a configured filter |

## Left out

- The `aiorwlock` reader/writer lock and async scheduling: they only make the pair replacement atomic. Accesses are modelled in the order the lock admits them.
- ServiceStatus.SetServiceState: takes one of the four states, while the Python function accepts any string; every caller passes one of the four constants.
- The `str(timedelta)` rendering of the uptime: it is library formatting. The model keeps the elapsed microseconds.
- The `:.4f` millisecond rendering of `resp_time`: it is floating-point formatting. The model keeps the elapsed clock ticks.
- The text of `traceback.format_exc()`: it is an opaque string parameter.
- `get_service_name` and `get_version`: oscar/version.py is not part of this model, and oscar/telemetry.py defines only `get_service_id`, so the `get_service_name` that oscar/middleware/logging.py:7 imports is not defined there. Both values enter as the `Identity` parameter.
- `record.getMessage()` (the `msg % args` interpolation): the filter takes the rendered message.
- The pythonjsonlogger rendering, the library's `RESERVED_ATTRS` list, `configure_logging` and `dictConfig`: these are library code. The reserved list is a parameter; the rename map, the reserved addition and the filter wiring are modelled.
- The unused plain `default` formatter of `LOGGING_CONFIG`: no handler uses it.
- LoggingConfig.ExtraField: does not model the JSON formatter library's own rule that also skips attributes whose names start with `_`; that rule belongs to the pythonjsonlogger library, not to this repository.
- Whether `oscar.requests` entries reach a sink: that depends on the library's root-logger defaults, which the configuration does not set.
- Exceptions outside `Exception` (cancellation, `KeyboardInterrupt`): `except Exception` does not catch them. The model's downstream can only raise an `Exception`.
- Trace and span id injection and the telemetry bootstrap: the repository's logging and middleware code does neither, and oscar/telemetry.py only reads `HOSTNAME`.
- oscar/routers/docling.py and oscar/models/ocr.py: a pass-through to an optional library with a 501/500 mapping.
- oscar/main.py app construction, static files and documentation pages, and the app.py command line: framework wiring.

=== FILE: http.dfy ===
/** The HTTP values exchanged between handlers, the middleware and the framework. */
module Http {

  /** A response body: none, plain text, or a flat JSON object of string fields. */
  datatype Body = Empty | PlainText(text: string) | JsonObject(fields: map<string, string>)

  datatype Response = Response(status: int, body: Body)

  /** FastAPI's `HTTPException(status_code, detail)`. */
  datatype HttpException = HttpException(status: int, detail: string)

  /**
   * The framework's default rendering of an `HTTPException`: the exception's
   * status with the JSON body `{"detail": detail}`, or no body at all for a
   * status that does not allow one. It runs inside the downstream chain, so
   * the request middleware sees this response.
   */
  function RenderHttpException(e: HttpException): (r: Response)
    ensures r.status == e.status
    ensures r.body.Empty? <==> !BodyAllowed(e.status)
    ensures BodyAllowed(e.status) ==> r.body.JsonObject? && r.body.fields.Keys == {"detail"} && r.body.fields["detail"] == e.detail
  {
    if BodyAllowed(e.status) then Response(e.status, JsonObject(map["detail" := e.detail]))
    else Response(e.status, Empty)
  }

  /** Whether a status may carry a body: not below 200, nor for 204, 205 and 304. */
  predicate BodyAllowed(status: int) {
    !(status < 200 || status in {204, 205, 304})
  }
}

=== FILE: lifecycle.dfy ===
/**
 * The application lifespan of `oscar/main.py` (online at startup, stopping at
 * shutdown) and how the probe handlers look once the request middleware wraps
 * them.
 */
module Lifecycle {
  import opened Wrappers
  import opened Http
  import opened ServiceStatus
  import opened LoggingConfig
  import opened RequestLogging

  /** Startup: the state is set online with the start instant defaulting to `now`. */
  function Startup(store: Snapshot, now: Instant): (r: Snapshot)
    ensures r == Snapshot(Online, Some(now))
    ensures Readyz(r).Success?
    ensures Uptime(r, now) == Elapsed(0)
  {
    SetServiceState(store, Online, None, now)
  }

  /** Shutdown: the state is set to stopping, which also resets the start instant to `now`. */
  function Shutdown(store: Snapshot, now: Instant): (r: Snapshot)
    ensures r == Snapshot(Stopping, Some(now))
    ensures Readyz(r).Failure?
    ensures forall later: Instant :: Uptime(r, later) == Elapsed(later - now)
  {
    SetServiceState(store, Stopping, None, now)
  }

  /**
   * Over the lifespan, readiness fails before startup, holds while serving and
   * fails again after shutdown, while liveness holds throughout; after shutdown
   * the uptime counts from the shutdown instant, not from startup.
   */
  lemma LifespanProbes(up: Instant, down: Instant, now: Instant, version: string)
    ensures Readyz(Initial).Failure? && Uptime(Initial, now) == Unknown
    ensures Readyz(Startup(Initial, up)).Success? && Uptime(Startup(Initial, up), now) == Elapsed(now - up)
    ensures Readyz(Shutdown(Startup(Initial, up), down)).Failure?
    ensures Status(Initial, now, version).status == "initialized"
    ensures Status(Startup(Initial, up), now, version).status == "ok"
    ensures Status(Shutdown(Startup(Initial, up), down), now, version).status == "stopping"
    ensures Uptime(Shutdown(Startup(Initial, up), down), now) == Elapsed(now - down)
    ensures Healthz().status == 200 && Livez().status == 200
  {
  }

  /** What the middleware sees from `/readyz`: its reply, or the framework's rendering of the raised 503. */
  function ServeReadyz(store: Snapshot): (r: Response)
    ensures r.status == 200 <==> store.state == Online
    ensures r.status == 200 ==> r.body == PlainText("ok")
    ensures r.status != 200 ==> r.status == 503 && r.body == JsonObject(map["detail" := "Service Unavailable"])
  {
    match Readyz(store)
    case Success(response) => response
    case Failure(e) => RenderHttpException(e)
  }

  /**
   * A `GET /readyz` through the middleware: while the service is not online
   * the 503 is logged at error, not debug; while online it is logged at debug,
   * unless a query string was sent, in which case it is logged at info.
   */
  lemma ReadyzRequestLevel(id: Identity, store: Snapshot, query: string, started: int, finished: int, tb: string)
    ensures var d := Dispatch(id, Request("GET", Url("/readyz", query)), Returned(ServeReadyz(store)), started, finished, tb);
      && (store.state != Online ==> d.response.status == 503 && d.logs[0].level == Error)
      && (store.state == Online && query == [] ==> d.response.status == 200 && d.logs[0].level == Debug)
      && (store.state == Online && query != [] ==> d.response.status == 200 && d.logs[0].level == Info)
  {
  }

  /** The liveness probes are logged at debug through the middleware in every state. */
  lemma LivenessRequestLevel(id: Identity, started: int, finished: int, tb: string)
    ensures Dispatch(id, Request("GET", Url("/healthz", [])), Returned(Healthz()), started, finished, tb).logs[0].level == Debug
    ensures Dispatch(id, Request("GET", Url("/livez", [])), Returned(Livez()), started, finished, tb).logs[0].level == Debug
  {
  }
}

=== FILE: logging_config.dfy ===
/**
 * The logging setup of `oscar/logging.py`: the probe filter on the access
 * log, the JSON formatter's field renaming, and which configured logger
 * carries which filter.
 */
module LoggingConfig {
  import opened Wrappers
  import opened Text

  /** Python's standard logging levels. */
  datatype Level = Debug | Info | Warning | Error | Critical

  /** The numeric value the `logging` module gives each level. */
  function LevelNumber(l: Level): (n: int)
    ensures l == Debug ==> n == 10
    ensures l == Info ==> n == 20
    ensures l == Warning ==> n == 30
    ensures l == Error ==> n == 40
    ensures l == Critical ==> n == 50
  {
    match l
    case Debug => 10
    case Info => 20
    case Warning => 30
    case Error => 40
    case Critical => 50
  }

  /** The substrings whose presence in an access-log message drops the record. */
  const ProbeRequests: seq<string> := ["GET /healthz", "GET /livez", "GET /readyz"]

  /** A message mentions a GET of one of the probe endpoints. */
  ghost predicate MentionsProbe(message: string) {
    exists k :: 0 <= k < |ProbeRequests| && Contains(message, ProbeRequests[k])
  }

  /**
   * `ProbeFilter.filter` applied to a record whose rendered message is
   * `message`: keep it unless one of the probe requests occurs in it.
   * Only a verdict is returned; the record is not touched.
   */
  function ProbeFilter(message: string): (keep: bool)
    ensures keep <==> !MentionsProbe(message)
  {
    var keep := Find(message, "GET /healthz") == -1
      && Find(message, "GET /livez") == -1
      && Find(message, "GET /readyz") == -1;
    assert !keep ==> Contains(message, ProbeRequests[0]) || Contains(message, ProbeRequests[1]) || Contains(message, ProbeRequests[2]);
    keep
  }

  /** Dropping survives extension: a message containing a dropped message is dropped too. */
  lemma DropSurvivesExtension(message: string, larger: string)
    requires !ProbeFilter(message) && Contains(larger, message)
    ensures !ProbeFilter(larger)
  {
    var k :| 0 <= k < |ProbeRequests| && Contains(message, ProbeRequests[k]);
    ContainsTransitive(larger, message, ProbeRequests[k]);
  }

  /** A message that mentions no probe request in a GET is kept, whatever else it contains. */
  lemma NoGetIsKept(message: string)
    requires 'G' !in message
    ensures ProbeFilter(message)
  {
    forall k | 0 <= k < |ProbeRequests|
      ensures !Contains(message, ProbeRequests[k])
    {
      if Contains(message, ProbeRequests[k]) {
        ContainsFirstChar(message, ProbeRequests[k]);
      }
    }
  }

  /** The test is on substrings, not on exact paths or on the request line as a whole. */
  lemma SubstringNotExactPath()
    ensures !ProbeFilter("GET /readyz?x")
    ensures !ProbeFilter("GET /healthzfoo")
    ensures ProbeFilter("POST /healthz")
    ensures ProbeFilter("HEAD /livez")
  {
    assert OccursAt("GET /readyz?x", "GET /readyz", 0);
    assert OccursAt("GET /healthzfoo", "GET /healthz", 0);
    NoGetIsKept("POST /healthz");
    NoGetIsKept("HEAD /livez");
  }

  /** The JSON formatter's `rename_fields`. */
  const RenameFields: map<string, string> :=
    map["asctime" := "timestamp", "levelname" := "level", "name" := "logger"]

  /** The output name of a record attribute. */
  function OutputKey(attr: string): (key: string)
    ensures attr == "asctime" ==> key == "timestamp"
    ensures attr == "levelname" ==> key == "level"
    ensures attr == "name" ==> key == "logger"
    ensures attr !in {"asctime", "levelname", "name"} ==> key == attr
  {
    if attr in RenameFields then RenameFields[attr] else attr
  }

  /** Two attributes get the same output name only if they are equal or one is renamed onto the other's name. */
  lemma OutputKeyCollisions(a: string, b: string)
    requires a != b && OutputKey(a) == OutputKey(b)
    ensures (a, b) in {("asctime", "timestamp"), ("timestamp", "asctime"),
                       ("levelname", "level"), ("level", "levelname"),
                       ("name", "logger"), ("logger", "name")}
  {
  }

  const ColorMessage: string := "color_message"

  /** The formatter's `reserved_attrs`: the library's reserved set with `color_message` added. */
  function ReservedAttrs(libraryReserved: set<string>): (r: set<string>)
    ensures ColorMessage in r && libraryReserved <= r
    ensures r - libraryReserved <= {ColorMessage}
  {
    libraryReserved + {ColorMessage}
  }

  /** The output name of an extra record attribute, or `None` when it is reserved and left out. */
  function ExtraField(attr: string, libraryReserved: set<string>): (r: Option<string>)
    ensures r.None? <==> attr in ReservedAttrs(libraryReserved)
    ensures r.Some? ==> r.value == OutputKey(attr)
  {
    if attr in ReservedAttrs(libraryReserved) then None else Some(OutputKey(attr))
  }

  /** `color_message` never appears as an output field, whatever the library reserves. */
  lemma ColorMessageNeverOutput(attr: string, libraryReserved: set<string>)
    ensures ExtraField(attr, libraryReserved) != Some(ColorMessage)
  {
  }

  datatype Stream = Stdout | Stderr

  /** A configured handler: the formatter it uses and the stream it writes to. */
  datatype HandlerConfig = HandlerConfig(formatter: string, stream: Stream)

  /** A configured logger. */
  datatype LoggerConfig = LoggerConfig(handlers: seq<string>, level: Level, propagate: bool, filters: seq<string>)

  const Handlers: map<string, HandlerConfig> := map[
    "root" := HandlerConfig("json", Stdout),
    "default" := HandlerConfig("json", Stderr),
    "access" := HandlerConfig("json", Stdout)
  ]

  const Loggers: map<string, LoggerConfig> := map[
    "uvicorn" := LoggerConfig(["default"], Info, false, []),
    "uvicorn.error" := LoggerConfig(["default"], Info, false, []),
    "uvicorn.access" := LoggerConfig(["access"], Info, false, ["probe"])
  ]

  /** The filters attached to a logger by name; a logger the configuration does not name has none. */
  function FiltersOf(logger: string): (r: seq<string>)
    ensures "probe" in r <==> logger == "uvicorn.access"
    ensures forall k :: 0 <= k < |r| ==> r[k] == "probe"
  {
    if logger in Loggers then Loggers[logger].filters else []
  }

  /** Runs one configured filter by name; `probe` is the only one the configuration defines. */
  function RunFilter(filter: string, message: string): bool {
    filter != "probe" || ProbeFilter(message)
  }

  /** Whether every filter attached to `logger` keeps a record with this message. */
  function Admits(logger: string, message: string): (keep: bool)
    ensures logger != "uvicorn.access" ==> keep
    ensures logger == "uvicorn.access" ==> (keep <==> !MentionsProbe(message))
  {
    var filters := FiltersOf(logger);
    forall k :: 0 <= k < |filters| ==> RunFilter(filters[k], message)
  }

  /** Every configured logger logs at INFO, does not propagate, and writes JSON through a configured handler. */
  lemma ConfiguredLoggers(logger: string)
    requires logger in Loggers
    ensures Loggers[logger].level == Info && !Loggers[logger].propagate
    ensures forall k :: 0 <= k < |Loggers[logger].handlers| ==>
      Loggers[logger].handlers[k] in Handlers && Handlers[Loggers[logger].handlers[k]].formatter == "json"
  {
  }
}

=== FILE: middleware.dfy ===
/**
 * `RequestLoggingMiddleware.dispatch` of `oscar/middleware/logging.py`: one
 * request in, the downstream outcome observed, and exactly one response and
 * one log entry out.
 */
module RequestLogging {
  import opened Wrappers
  import opened Text
  import opened Http
  import opened LoggingConfig

  /** The parts of `request.url` the middleware reads. */
  datatype Url = Url(path: string, query: string)

  datatype Request = Request(verb: string, url: Url)

  /** A raised Python exception: its class name and `str(e)`. */
  datatype Exception = Exception(typeName: string, message: string)

  /** What `call_next(request)` did: returned a response or raised. */
  datatype Downstream = Returned(response: Response) | Raised(exception: Exception)

  /** The service name and short version the middleware stamps on every entry. */
  datatype Identity = Identity(service: string, version: string)

  /** The extra fields of the unhandled-exception entry. */
  datatype ErrorDetail = ErrorDetail(errorType: string, error: string, traceback: string)

  /**
   * One call to the `oscar.requests` logger: its level, message and extra
   * fields. `respTime` is the elapsed `perf_counter` time in the clock's
   * ticks; its `.4f` millisecond rendering is not modelled.
   */
  datatype LogEntry = LogEntry(
    level: Level,
    message: string,
    service: string,
    path: string,
    version: string,
    respTime: int,
    verb: string,
    status: int,
    failure: Option<ErrorDetail>)

  /** The response handed back to the server and the log calls made on the way. */
  datatype Dispatched = Dispatched(response: Response, logs: seq<LogEntry>)

  const ProbePaths: set<string> := {"/livez", "/healthz", "/readyz"}

  /** The fixed reply to an unhandled exception; it carries nothing from the exception. */
  const InternalServerError: Response := Response(500, JsonObject(map["error" := "Internal Server Error"]))

  /** The path that is logged: the URL path, followed by `?` and the query when the query is non-empty. */
  function LoggedPath(url: Url): (r: string)
    ensures url.query == [] ==> r == url.path
    ensures url.query != [] ==> |r| == |url.path| + 1 + |url.query| && r[..|url.path|] == url.path && r[|url.path|] == '?' && r[|url.path| + 1..] == url.query
  {
    if url.query != [] then url.path + "?" + url.query else url.path
  }

  /** Splits a logged path at its first `?` back into path and query. */
  function SplitLoggedPath(logged: string): (r: Url)
    ensures '?' !in r.path
  {
    var i := Find(logged, "?");
    if i == -1 then
      assert forall k :: 0 <= k < |logged| ==> logged[k] != '?' by {
        forall k | 0 <= k < |logged| && logged[k] == '?' ensures false {
          assert OccursAt(logged, "?", k);
        }
      }
      Url(logged, [])
    else
      assert forall k :: 0 <= k < i ==> logged[k] != '?' by {
        forall k | 0 <= k < i && logged[k] == '?' ensures false {
          assert OccursAt(logged, "?", k);
        }
      }
      Url(logged[..i], logged[i + 1..])
  }

  /** A URL path never contains `?`, so the logged path determines the URL it came from. */
  lemma LoggedPathRoundTrip(url: Url)
    requires '?' !in url.path
    ensures SplitLoggedPath(LoggedPath(url)) == url
  {
    var logged := LoggedPath(url);
    if url.query != [] {
      assert OccursAt(logged, "?", |url.path|);
      forall k | 0 <= k < |url.path|
        ensures !OccursAt(logged, "?", k)
      {
        assert logged[k] == url.path[k];
      }
      assert Find(logged, "?") == |url.path|;
    } else {
      forall k | 0 <= k
        ensures !OccursAt(logged, "?", k)
      {
        if k < |logged| {
          assert logged[k] == url.path[k];
        }
      }
    }
  }

  /** The level of a completed request's entry: 5xx error, else 4xx warning, else a probe path debug, else info. */
  function Severity(status: int, path: string): (r: Level)
    ensures r == Error <==> status >= 500
    ensures r == Warning <==> 400 <= status < 500
    ensures r == Debug <==> status < 400 && path in ProbePaths
    ensures r == Info <==> status < 400 && path !in ProbePaths
  {
    if status >= 500 then Error
    else if status >= 400 then Warning
    else if path in ProbePaths then Debug
    else Info
  }

  /** For a fixed path, a larger status never logs at a lower level. */
  lemma SeverityMonotone(s1: int, s2: int, path: string)
    requires s1 <= s2
    ensures LevelNumber(Severity(s1, path)) <= LevelNumber(Severity(s2, path))
  {
  }

  /** `"{service} {method} {path} {status}"`. */
  function SuccessMessage(service: string, verb: string, path: string, status: int): (m: string)
    ensures var code := IntToDecimal(status);
      && |m| == |service| + |verb| + |path| + |code| + 3
      && m[..|service|] == service && m[|service|] == ' '
      && m[|service| + 1..|service| + 1 + |verb|] == verb && m[|service| + 1 + |verb|] == ' '
      && m[|service| + 2 + |verb|..|service| + 2 + |verb| + |path|] == path
      && m[|service| + 2 + |verb| + |path|] == ' '
      && m[|m| - |code|..] == code
  {
    service + " " + verb + " " + path + " " + IntToDecimal(status)
  }

  /** The status code can be read back from the last word of the success message. */
  lemma SuccessMessageStatus(service: string, verb: string, path: string, status: int)
    ensures ParseInt(AfterLastSpace(SuccessMessage(service, verb, path, status))) == Some(status)
  {
    AfterLastSpaceOfJoin(service + " " + verb + " " + path, IntToDecimal(status));
    IntDecimalRoundTrip(status);
  }

  /** `"{method} {path} - Unhandled Exception {type}: {msg}"`. */
  function FailureMessage(verb: string, path: string, e: Exception): (m: string)
    ensures |m| == |verb| + |path| + |e.typeName| + |e.message| + 26
    ensures m[..|verb| + 1 + |path|] == verb + " " + path
    ensures m[|verb| + |path| + 1..|verb| + |path| + 24] == " - Unhandled Exception "
    ensures m[|verb| + |path| + 24..|m| - |e.message| - 2] == e.typeName
    ensures m[|m| - |e.message| - 2..|m| - |e.message|] == ": "
    ensures m[|m| - |e.message|..] == e.message
  {
    verb + " " + path + " - Unhandled Exception " + e.typeName + ": " + e.message
  }

  /**
   * `dispatch`: `started` and `finished` are the `perf_counter` readings around
   * the downstream call, and `traceback` is `traceback.format_exc()` when the
   * downstream raised.
   */
  function Dispatch(id: Identity, req: Request, downstream: Downstream, started: int, finished: int, traceback: string): (r: Dispatched)
    ensures |r.logs| == 1
    ensures downstream.Returned? ==> r.response == downstream.response
    ensures downstream.Raised? ==> r.response == InternalServerError
    ensures r.logs[0].status == r.response.status
    ensures r.logs[0].path == LoggedPath(req.url) && r.logs[0].verb == req.verb
    ensures r.logs[0].service == id.service && r.logs[0].version == id.version
    ensures r.logs[0].respTime == finished - started
    ensures r.logs[0].level == Critical <==> downstream.Raised?
    ensures downstream.Returned? ==> r.logs[0].level == Severity(r.response.status, r.logs[0].path) && r.logs[0].failure.None?
    ensures downstream.Raised? ==> r.logs[0].failure == Some(ErrorDetail(downstream.exception.typeName, downstream.exception.message, traceback))
  {
    var path := LoggedPath(req.url);
    var elapsed := finished - started;
    match downstream
    case Returned(response) =>
      var status := response.status;
      var entry := LogEntry(Severity(status, path), SuccessMessage(id.service, req.verb, path, status),
                            id.service, path, id.version, elapsed, req.verb, status, None);
      Dispatched(response, [entry])
    case Raised(e) =>
      var entry := LogEntry(Critical, FailureMessage(req.verb, path, e),
                            id.service, path, id.version, elapsed, req.verb, 500,
                            Some(ErrorDetail(e.typeName, e.message, traceback)));
      Dispatched(InternalServerError, [entry])
  }

  /** Nothing about the exception reaches the response: any two exceptions give the same reply. */
  lemma ExceptionDoesNotLeak(id: Identity, req: Request, e1: Exception, e2: Exception, started: int, finished: int, tb1: string, tb2: string)
    ensures Dispatch(id, req, Raised(e1), started, finished, tb1).response
         == Dispatch(id, req, Raised(e2), started, finished, tb2).response
  {
  }

  /** The entry's message follows the success or the failure format. */
  lemma DispatchMessage(id: Identity, req: Request, downstream: Downstream, started: int, finished: int, traceback: string)
    ensures var entry := Dispatch(id, req, downstream, started, finished, traceback).logs[0];
      match downstream
      case Returned(response) => entry.message == SuccessMessage(id.service, req.verb, entry.path, response.status)
      case Raised(e) => entry.message == FailureMessage(req.verb, entry.path, e)
  {
  }

  /** The probe-path test sees the query: a probe endpoint requested with a query logs at info, not debug. */
  lemma ProbeWithQueryLogsInfo(id: Identity, verb: string, probe: string, query: string, response: Response, started: int, finished: int, tb: string)
    requires probe in ProbePaths && query != [] && response.status < 400
    ensures Dispatch(id, Request(verb, Url(probe, query)), Returned(response), started, finished, tb).logs[0].level == Info
  {
  }

  /** The middleware logs to `oscar.requests`, which carries no filter, so no entry of it is dropped by the probe filter. */
  lemma RequestLogNeverFiltered(id: Identity, req: Request, downstream: Downstream, started: int, finished: int, traceback: string)
    ensures Admits("oscar.requests", Dispatch(id, req, downstream, started, finished, traceback).logs[0].message)
  {
  }
}

=== FILE: status.dfy ===
/**
 * The process-wide service state of `oscar/routers/status.py` and the probe
 * handlers that read it. The reader/writer lock only makes the replacement of
 * the `(state, started)` pair atomic, so the store is modelled as an immutable
 * snapshot that a write replaces as a whole, and concurrent accesses as the
 * sequence in which the lock admits them.
 */
module ServiceStatus {
  import opened Wrappers
  import opened Http

  const ServiceInitialized: string := "initialized"
  const ServiceOnline: string := "ok"
  const ServiceMaintenance: string := "maintenance"
  const ServiceStopping: string := "stopping"

  /** The four service states the program uses. */
  datatype State = Initialized | Online | Maintenance | Stopping

  /** The string constant a state is stored and reported as. */
  function Name(s: State): (r: string)
    ensures ParseState(r) == Some(s)
  {
    match s
    case Initialized => ServiceInitialized
    case Online => ServiceOnline
    case Maintenance => ServiceMaintenance
    case Stopping => ServiceStopping
  }

  /** The state a reported status string names, if any. */
  function ParseState(name: string): Option<State> {
    if name == ServiceInitialized then Some(Initialized)
    else if name == ServiceOnline then Some(Online)
    else if name == ServiceMaintenance then Some(Maintenance)
    else if name == ServiceStopping then Some(Stopping)
    else None
  }

  /** Distinct states have distinct names, and every name `ParseState` accepts is a state's name. */
  lemma NameBijective(name: string, s: State)
    ensures ParseState(name) == Some(s) <==> Name(s) == name
  {
  }

  /** A wall-clock instant (`datetime` in UTC), in microseconds. */
  type Instant = int

  /** The pair guarded by the lock. */
  datatype Snapshot = Snapshot(state: State, started: Option<Instant>)

  /** The store when the module is loaded. */
  const Initial: Snapshot := Snapshot(Initialized, None)

  /**
   * `set_service_state(state, started)` at wall-clock time `now`: an omitted
   * `started` defaults to `now`, and both fields are replaced together.
   * There is no validation and no failure path.
   */
  function SetServiceState(store: Snapshot, state: State, started: Option<Instant>, now: Instant): (r: Snapshot)
    ensures r.state == state
    ensures r.started.Some?
    ensures started.Some? ==> r.started == started
    ensures started.None? ==> r.started == Some(now)
  {
    Snapshot(state, Some(if started.Some? then started.value else now))
  }

  /** Nothing of the previous pair survives a write: the result depends only on the call's arguments. */
  lemma NoFieldSurvives(a: Snapshot, b: Snapshot, state: State, started: Option<Instant>, now: Instant)
    ensures SetServiceState(a, state, started, now) == SetServiceState(b, state, started, now)
  {
  }

  /** The uptime of a snapshot: `"unknown"` before any start instant is recorded. */
  datatype UptimeReading = Unknown | Elapsed(micros: int)

  /** `uptime()` read at wall-clock time `now`; the `str(timedelta)` rendering is not modelled. */
  function Uptime(snap: Snapshot, now: Instant): (r: UptimeReading)
    ensures r.Unknown? <==> snap.started.None?
    ensures r.Elapsed? ==> snap.started.value + r.micros == now
  {
    match snap.started
    case None => Unknown
    case Some(t) => Elapsed(now - t)
  }

  /** The `Status` model returned by `/v1/status`. */
  datatype StatusView = StatusView(status: string, uptime: UptimeReading, version: string, service: string)

  /** `/v1/status`: the current state's string and the uptime, with the default version and service. */
  function Status(snap: Snapshot, now: Instant, version: string): (r: StatusView)
    ensures ParseState(r.status) == Some(snap.state)
    ensures r.uptime.Unknown? <==> snap.started.None?
    ensures r.uptime == Uptime(snap, now)
    ensures r.version == version && r.service == "oscar"
  {
    StatusView(Name(snap.state), Uptime(snap, now), version, "oscar")
  }

  /** The liveness reply shared by `/healthz` and `/livez`. */
  const LiveReply: Response := Response(200, PlainText("ok"))

  /** `/healthz`: reads no state and always answers 200 "ok". */
  function Healthz(): (r: Response)
    ensures r.status == 200 && r.body == PlainText("ok")
  {
    LiveReply
  }

  /** `/livez`: reads no state and always answers 200 "ok". */
  function Livez(): (r: Response)
    ensures r.status == 200 && r.body == PlainText("ok")
  {
    LiveReply
  }

  const Unavailable: HttpException := HttpException(503, "Service Unavailable")

  /** `/readyz`: 200 "ok" when the stored state string is the online constant, otherwise a raised 503. */
  function Readyz(snap: Snapshot): (r: Result<Response, HttpException>)
    ensures r.Success? <==> snap.state == Online
    ensures r.Success? ==> r.value == Response(200, PlainText("ok"))
    ensures r.Failure? ==> r.error.status == 503 && r.error.detail == "Service Unavailable"
  {
    if Name(snap.state) != ServiceOnline then Failure(Unavailable)
    else Success(Response(200, PlainText("ok")))
  }

  /** One access to the store, in the order the lock admits it. */
  datatype Access = Write(state: State, started: Option<Instant>, now: Instant) | Read

  /** The store after a sequence of accesses, starting from the initial pair. */
  function After(log: seq<Access>): Snapshot
    decreases |log|
  {
    if |log| == 0 then Initial
    else
      var store := After(log[..|log| - 1]);
      var access := log[|log| - 1];
      if access.Write? then SetServiceState(store, access.state, access.started, access.now) else store
  }

  /** The pair a single write commits. */
  function Committed(w: Access): Snapshot
    requires w.Write?
  {
    SetServiceState(Initial, w.state, w.started, w.now)
  }

  /** Index of the last write in `log`, if there is one. */
  function LastWrite(log: seq<Access>): (r: Option<nat>)
    ensures r.Some? ==> r.value < |log| && log[r.value].Write?
    ensures r.Some? ==> forall j :: r.value < j < |log| ==> log[j].Read?
    ensures r.None? ==> forall j :: 0 <= j < |log| ==> log[j].Read?
    decreases |log|
  {
    if |log| == 0 then None
    else if log[|log| - 1].Write? then Some(|log| - 1)
    else LastWrite(log[..|log| - 1])
  }

  /**
   * Every snapshot a reader can observe is untorn: it is the initial pair when
   * no write has happened, and otherwise both fields come from the last write.
   */
  lemma {:induction false} StoreHoldsLastWrite(log: seq<Access>)
    ensures LastWrite(log).None? ==> After(log) == Initial
    ensures LastWrite(log).Some? ==> After(log) == Committed(log[LastWrite(log).value])
    decreases |log|
  {
    if |log| > 0 {
      var init := log[..|log| - 1];
      StoreHoldsLastWrite(init);
      if log[|log| - 1].Read? {
        assert LastWrite(log) == LastWrite(init);
      }
    }
  }

  /** The uptime is `"unknown"` exactly while no write has happened. */
  lemma UptimeUnknownUntilFirstWrite(log: seq<Access>, now: Instant)
    ensures Uptime(After(log), now).Unknown? <==> forall j :: 0 <= j < |log| ==> log[j].Read?
  {
  }
}

=== FILE: text.dfy ===
/**
 * String facts the service relies on: Python's `str.find` as used by the
 * probe filter, and the decimal rendering of an `int` inside an f-string.
 */
module Text {
  import opened Wrappers

  /** `sub` occurs in `s` starting at index `i`. */
  predicate OccursAt(s: string, sub: string, i: int) {
    0 <= i && i + |sub| <= |s| && s[i..i + |sub|] == sub
  }

  /** `sub` is a substring of `s` (Python's `sub in s`). */
  ghost predicate Contains(s: string, sub: string) {
    exists i :: OccursAt(s, sub, i)
  }

  /** Python's `s.find(sub, start)`: the first index at or after `start` where `sub` occurs, or -1. */
  function FindFrom(s: string, sub: string, start: nat): (r: int)
    requires start <= |s|
    ensures r == -1 || (start <= r && OccursAt(s, sub, r))
    ensures r == -1 <==> forall i :: start <= i ==> !OccursAt(s, sub, i)
    ensures r != -1 ==> forall i :: start <= i < r ==> !OccursAt(s, sub, i)
    decreases |s| - start
  {
    if start + |sub| > |s| then -1
    else if s[start..start + |sub|] == sub then start
    else FindFrom(s, sub, start + 1)
  }

  /** Python's `s.find(sub)`. */
  function Find(s: string, sub: string): (r: int)
    ensures r == -1 <==> !Contains(s, sub)
    ensures r != -1 ==> OccursAt(s, sub, r) && forall i :: 0 <= i < r ==> !OccursAt(s, sub, i)
  {
    FindFrom(s, sub, 0)
  }

  /** Being a substring is transitive. */
  lemma ContainsTransitive(s: string, mid: string, sub: string)
    requires Contains(s, mid) && Contains(mid, sub)
    ensures Contains(s, sub)
  {
    var j :| OccursAt(s, mid, j);
    var i :| OccursAt(mid, sub, i);
    forall k | 0 <= k < |sub|
      ensures s[j + i..j + i + |sub|][k] == sub[k]
    {
      assert s[j + i + k] == s[j..j + |mid|][i + k];
      assert mid[i + k] == mid[i..i + |sub|][k];
    }
    assert OccursAt(s, sub, j + i);
  }

  /** A non-empty substring's first character occurs in the string. */
  lemma ContainsFirstChar(s: string, sub: string)
    requires |sub| > 0 && Contains(s, sub)
    ensures sub[0] in s
  {
  }

  predicate IsDigit(c: char) {
    '0' <= c <= '9'
  }

  predicate AllDigits(s: string) {
    forall k :: 0 <= k < |s| ==> IsDigit(s[k])
  }

  function DigitChar(d: nat): (c: char)
    requires d < 10
    ensures IsDigit(c)
  {
    ('0' as int + d) as char
  }

  function DigitValue(c: char): (d: nat)
    requires IsDigit(c)
    ensures d < 10 && DigitChar(d) == c
  {
    c as int - '0' as int
  }

  /** Decimal digits of a natural number, most significant first, with no leading zero. */
  function NatToDecimal(n: nat): (r: string)
    ensures |r| >= 1 && AllDigits(r)
    ensures r[0] == '0' ==> n == 0
    decreases n
  {
    if n < 10 then [DigitChar(n)] else NatToDecimal(n / 10) + [DigitChar(n % 10)]
  }

  /** The number a string of decimal digits denotes. */
  function DecimalValue(s: string): nat
    requires AllDigits(s)
    decreases |s|
  {
    if |s| == 0 then 0 else 10 * DecimalValue(s[..|s| - 1]) + DigitValue(s[|s| - 1])
  }

  lemma {:induction false} DecimalRoundTrip(n: nat)
    ensures DecimalValue(NatToDecimal(n)) == n
    decreases n
  {
    if n >= 10 {
      var r := NatToDecimal(n);
      assert r[..|r| - 1] == NatToDecimal(n / 10);
      DecimalRoundTrip(n / 10);
    }
  }

  /** Python's `f"{n}"` for an `int`: an optional minus sign followed by decimal digits. */
  function IntToDecimal(n: int): (r: string)
    ensures ' ' !in r
    ensures |r| >= 1 && (r[0] == '-' <==> n < 0)
    ensures var digits := if n < 0 then r[1..] else r;
      |digits| >= 1 && AllDigits(digits) && (digits[0] == '0' ==> n == 0)
  {
    var r := if n < 0 then "-" + NatToDecimal(-n) else NatToDecimal(n);
    assert forall k :: 0 <= k < |r| ==> r[k] == '-' || IsDigit(r[k]);
    assert n < 0 ==> r[1..] == NatToDecimal(-n);
    r
  }

  /** Python's `int(s)` restricted to the shapes `IntToDecimal` produces; `None` for anything else. */
  function ParseInt(s: string): Option<int> {
    if |s| > 1 && s[0] == '-' && AllDigits(s[1..]) then Some(0 - DecimalValue(s[1..]) as int)
    else if |s| > 0 && AllDigits(s) then Some(DecimalValue(s))
    else None
  }

  lemma IntDecimalRoundTrip(n: int)
    ensures ParseInt(IntToDecimal(n)) == Some(n)
  {
    var s := IntToDecimal(n);
    if n < 0 {
      var d := NatToDecimal(-n);
      assert s == "-" + d;
      assert s[1..] == d;
      DecimalRoundTrip(-n);
    } else {
      var d := NatToDecimal(n);
      assert s == d;
      assert IsDigit(s[0]);
      DecimalRoundTrip(n);
    }
  }

  /** The text after the last space of `s` (all of `s` when it has no space). */
  function AfterLastSpace(s: string): (r: string)
    ensures ' ' !in r
    decreases |s|
  {
    if |s| == 0 then []
    else if s[|s| - 1] == ' ' then []
    else AfterLastSpace(s[..|s| - 1]) + [s[|s| - 1]]
  }

  lemma {:induction false} AfterLastSpaceOfJoin(prefix: string, last: string)
    requires ' ' !in last
    ensures AfterLastSpace(prefix + " " + last) == last
    decreases |last|
  {
    var s := prefix + " " + last;
    if |last| > 0 {
      var init := last[..|last| - 1];
      assert s[..|s| - 1] == prefix + " " + init;
      AfterLastSpaceOfJoin(prefix, init);
      assert last == init + [last[|last| - 1]];
    }
  }
}

=== FILE: wrappers.dfy ===
/** Failure-carrying datatypes used across the model. */
module Wrappers {

  /** A value that may be absent (Python's `None`). */
  datatype Option<+T> = None | Some(value: T)

  /** Either a normal result or a raised error. */
  datatype Result<+R, +E> = Success(value: R) | Failure(error: E)
}
